=== FILE: README.md ===
# Dynamic form engine — a Dafny model

This project models the dynamic form engine of a marketing website: admins author
form definitions (`custom_forms` records holding an ordered list of fields and
placement metadata), and public pages render the published definitions for
their page as pop-up dialogs or inline sections and store submissions
(`form_submissions`, a form id plus a key/value bag keyed by field label).

Everything is immutable datatypes and pure functions:

- `jsvalues.dfy` — module `JsValues`: nullable values (`Option`), the `||`
  fallback on nullable strings (`Or`), and the whitespace test behind
  `!s.trim()` (`IsBlank`, with a reference `Trim`).
- `schema.dfy` — module `Schema`: `FormField`, `CustomForm`, the field and
  display types (with an `Other…` case, since stored values are only cast),
  and the field-list operations: build a new field, remove by id, merge a
  patch into the field with an id.
- `store.dfy` — module `Store`: the `custom_forms` table as a sequence of wire
  rows, the normalisation of a row (null `fields` becomes `[]`, `display_type`
  is cast), insert / full-overwrite update / delete, the admin listing (newest
  first) and the public listing (published forms of one page), and the
  insert-only submission sink. A backend reply is `Ok` or `Failed`.
- `builder.dfy` — module `Builder`: the admin session (selected form, draft,
  create and add-field inputs), every handler of the builder screen, an
  `Event`/`Step` machine over session plus table, and its invariant.
- `renderer.dfy` — module `Renderer`: the renderer state (popup open, the one
  shared input buffer, the submitted form id), the popup/section partition,
  trigger labels, the dialog, section blocks, per-type widget dispatch, and
  the submit state machine with the timer as an explicit event, gathered into
  an `Event`/`Step` machine over page state plus submission sink.

Behaviours of the code worth knowing:

- The timer set after a successful submit clears `submitted` for every form,
  so a section form's thank-you state also disappears (`Renderer.TimerFires`,
  `Renderer.TimerResetsSections`); it is not kept until the user navigates away.
- The input buffer is one map shared by every form on the page and a submit
  sends all of it, so keys typed into another form's fields can appear in a
  submission (`Renderer.SubmitRequest`, `Renderer.SharedBufferCrossesForms`).
- Wire normalisation only turns a null `fields` into `[]` and casts
  `display_type`; an unknown display type is kept and such a form is rendered
  nowhere (`Renderer.UnplacedForms`), while the admin list labels it "Section"
  (`Builder.Entry`).
- A successful delete clears the selection and the draft whichever form was
  deleted (`Builder.DeleteForm`).

Side inputs are parameters: the fresh field id (`crypto.randomUUID()`), the
backend-assigned columns of a created row (`template` in
`Builder.CreateForm`: id, creation time, column defaults), and every backend
reply.

The builder's event machine (`Builder.Admissible`) lets an admin type only
into inputs that are on screen (the name input while creating, the add-field
inputs while there is a draft), click only a listed form, and pick only
"popup" or "section" in the display type select; it takes from the backend a
fresh primary key on create and from `crypto.randomUUID()` a fresh field id
on add. That stored forms have distinct field ids is not assumed but part of
the invariant `Builder.Good`, which every action keeps.

## Model

| member | source | states |
|---|---|---|
| JsValues.Or | src/components/DynamicFormDisplay.tsx:245 | `a \|\| b` on a nullable string gives `a` when it is present and non-empty and `b` otherwise |
| JsValues.TrimEmptyIffBlank | src/pages/admin/FormManagement.tsx:173 | a string trims to empty exactly when every character is JS whitespace, which is the add-field and create-name guard |
| Schema.ParseDisplay | src/components/DynamicFormDisplay.tsx:58 | the display-type cast keeps the stored string: its name reads back unchanged, for every string |
| Schema.ParseDisplayName | src/pages/admin/FormManagement.tsx:89-93 | writing a display type and casting it back on the next read gives the same display type |
| Schema.MakeField | src/pages/admin/FormManagement.tsx:175-182 | a new field has the fresh id, the label as typed (not trimmed), the chosen type, required and placeholder, and options ["Option 1","Option 2"] exactly when the type is select, none otherwise |
| Schema.RemoveField | src/pages/admin/FormManagement.tsx:196 | the result holds exactly the fields whose id differs, and no field with the removed id |
| Schema.RemoveFieldAppend | src/pages/admin/FormManagement.tsx:196 | removal distributes over concatenation, so the survivors keep their relative order |
| Schema.RemoveUnknownId | src/pages/admin/FormManagement.tsx:196 | removing an id no field has leaves the list unchanged |
| Schema.Merge | src/pages/admin/FormManagement.tsx:205 | every key present in the patch overrides the field's value; id and options are kept |
| Schema.UpdateField | src/pages/admin/FormManagement.tsx:204-206 | length, order and every id are preserved; a field with another id is unchanged; the matching field becomes the field merged with the patch |
| Schema.UpdateUnknownId | src/pages/admin/FormManagement.tsx:204-206 | updating an id no field has leaves the list unchanged |
| Schema.RemoveIdempotent | src/pages/admin/FormManagement.tsx:196 | removing the same id a second time changes nothing |
| Schema.RemoveThenUpdate | src/pages/admin/FormManagement.tsx:192-207 | after a remove, an update with the same id is a no-op |
| Schema.AppendKeepsDistinct | src/pages/admin/FormManagement.tsx:176-186 | appending a field under a fresh id keeps field ids pairwise distinct |
| Schema.RemoveKeepsDistinct | src/pages/admin/FormManagement.tsx:196 | removal keeps field ids pairwise distinct |
| Schema.UpdateKeepsDistinct | src/pages/admin/FormManagement.tsx:204-206 | updates keep field ids pairwise distinct |
| Store.Normalise | src/components/DynamicFormDisplay.tsx:55-59 | a null field list becomes the empty list, a present one is kept, the display type's name is the stored string, every other column is copied |
| Store.NewRow | src/pages/admin/FormManagement.tsx:101-105 | a created row has the given name, target page "home", an empty field list, and the backend's id, creation time and defaults |
| Store.Insert | src/pages/admin/FormManagement.tsx:99-107 | an insert appends exactly the new row and keeps primary keys unique |
| Store.Overwrite | src/pages/admin/FormManagement.tsx:133-142 | an update writes exactly the eight mutable attributes of the draft; id and creation time are kept; read back, the row carries the draft's attributes |
| Store.UpdateRows | src/pages/admin/FormManagement.tsx:131-143 | every row with the draft's id is overwritten and every other row is unchanged |
| Store.DeleteRows | src/pages/admin/FormManagement.tsx:158 | the rows left are exactly those whose id differs |
| Store.InsertByAge | src/pages/admin/FormManagement.tsx:86 | inserting into a newest-first list keeps it newest first and adds exactly one row |
| Store.SortNewestFirst | src/pages/admin/FormManagement.tsx:83-86 | the admin order is a newest-first permutation of the table |
| Store.ListAll | src/pages/admin/FormManagement.tsx:82-93 | the admin list holds every row, normalised, ordered by creation time descending, and nothing else |
| Store.ListPublished | src/components/DynamicFormDisplay.tsx:47-59 | every form listed for a page is the normalisation of a stored row that targets that page and is published, and every such row is listed |
| Store.ListPublishedAppend | src/components/DynamicFormDisplay.tsx:47-59 | the public listing distributes over concatenation of the table, so each published row of the page is listed once, in table order |
| Store.RecordSubmission | src/components/DynamicFormDisplay.tsx:64-70 | a successful submission is appended and nothing earlier changes; a failed one leaves the sink as it was |
| Builder.HandleAddField | src/pages/admin/FormManagement.tsx:172-190 | without a draft or with a blank label nothing changes; otherwise exactly one field is appended, earlier fields and other draft attributes are unchanged, and the inputs reset |
| Builder.HandleRemoveField | src/pages/admin/FormManagement.tsx:192-198 | with a draft, only its field list changes, by removal of the id; without one nothing changes |
| Builder.HandleUpdateField | src/pages/admin/FormManagement.tsx:200-208 | with a draft, only its field list changes, by the update; without one nothing changes |
| Builder.TogglePublish | src/pages/admin/FormManagement.tsx:216-220 | the draft's published flag flips and nothing else in the session changes |
| Builder.TogglePublishTwice | src/pages/admin/FormManagement.tsx:216-220 | toggling twice gives the session back |
| Builder.ApplyEdit | src/pages/admin/FormManagement.tsx:356-481 | a form-level edit sets exactly its own attribute; id, fields, published flag and creation time are kept |
| Builder.HandleEdit | src/pages/admin/FormManagement.tsx:438-474 | trigger text is editable only for a popup and the section title only for a section; otherwise the edit is applied to the draft alone |
| Builder.SaveRequest | src/pages/admin/FormManagement.tsx:210-214 | an update is issued exactly when there is a draft with a non-empty id, and it carries the whole draft |
| Builder.HandleSave | src/pages/admin/FormManagement.tsx:129-153 | save never touches the session; the table changes only on a successful issued update, by overwriting the draft's record |
| Builder.FailedSaveKeepsDraft | src/pages/admin/FormManagement.tsx:151-153 | a failed save leaves draft and table as they were |
| Builder.SelectForm | src/pages/admin/FormManagement.tsx:287-290 | clicking a listed form makes it both the selected form and the draft |
| Builder.OpenCreate | src/pages/admin/FormManagement.tsx:235 | the create button opens the name input and changes nothing else |
| Builder.CancelCreate | src/pages/admin/FormManagement.tsx:260-263 | cancelling closes the name input and empties it, leaving selection and draft alone |
| Builder.CreateForm | src/pages/admin/FormManagement.tsx:97-127 | with an open input, a non-blank name and success, the new record (name, page "home", no fields) is inserted and becomes selected form and draft, and the input closes; otherwise nothing changes |
| Builder.DeleteForm | src/pages/admin/FormManagement.tsx:156-170 | a successful delete removes the record and clears selection and draft; a failed one changes nothing |
| Builder.LookupPage | src/pages/admin/FormManagement.tsx:306 | the page name is found exactly when the table has an entry for the page, and it is the name of the first such entry, as `find` returns |
| Builder.PageLabel | src/pages/admin/FormManagement.tsx:306 | an unknown target page is listed under its own value; a known one under the name of its first table entry, or its own value when that name is empty |
| Builder.Entry | src/pages/admin/FormManagement.tsx:294-308 | a list entry shows name, published badge and page label, and "Popup" exactly for a popup, "Section" otherwise |
| Builder.Step | src/pages/admin/FormManagement.tsx:249-614 | of all admin actions only the create, delete and save confirmations reach the table; a save leaves the screen as it was; typing a name or a new-field input changes that input alone; clicking a form loads it as selected and draft; the publish switch flips the draft's flag |
| Builder.StepKeepsGood | src/pages/admin/FormManagement.tsx:116-220 | every admin action keeps the invariant: a draft exists exactly when a form is selected, of that form, with distinct field ids and a display type of one spelling, whose id the table holds; the name input is empty while closed; the table has unique ids and every stored form distinct field ids |
| Builder.ListedFormIsWellFormed | src/pages/admin/FormManagement.tsx:279-290 | a form clicked in the list has distinct field ids and a display type of one spelling whenever the stored forms have distinct field ids |
| Builder.UpdateKeepsStoredDistinct | src/pages/admin/FormManagement.tsx:130-143 | saving a draft with distinct field ids keeps every stored form's field ids distinct |
| Builder.DeleteKeepsUnique | src/pages/admin/FormManagement.tsx:158 | deleting keeps primary keys unique |
| Builder.UpdateKeepsUnique | src/pages/admin/FormManagement.tsx:143 | updating keeps primary keys unique |
| Builder.GoodSaveRoundTrip | src/pages/admin/FormManagement.tsx:82-143 | in every state the builder's invariant allows, a successful save of a draft with an id is listed back with every mutable attribute equal to the draft |
| Builder.SaveRoundTrip | src/pages/admin/FormManagement.tsx:82-143 | after a successful save the admin list holds a record with the draft's id, and every listed record with that id has every mutable attribute equal to the saved draft |
| Builder.SavedPublishedIsListed | src/components/DynamicFormDisplay.tsx:48-52 | a saved published form, even with no fields, is listed on its target page |
| Builder.LastSaveWins | src/pages/admin/FormManagement.tsx:131-143 | of two saves of the same form the later alone decides the record, so the earlier one's changes are lost |
| Renderer.PopupForms | src/components/DynamicFormDisplay.tsx:94 | the popup forms are exactly the listed forms whose display type is popup |
| Renderer.SectionForms | src/components/DynamicFormDisplay.tsx:95 | the section forms are exactly the listed forms whose display type is section |
| Renderer.UnplacedForms | src/components/DynamicFormDisplay.tsx:94-95 | a form of any other display type is in neither list |
| Renderer.PopupFormsAppend | src/components/DynamicFormDisplay.tsx:94 | the popup filter preserves the listing's order |
| Renderer.SectionFormsAppend | src/components/DynamicFormDisplay.tsx:95 | the section filter preserves the listing's order |
| Renderer.PartitionCovers | src/components/DynamicFormDisplay.tsx:94-95 | popup, section and unplaced forms split the listing, each form in exactly one |
| Renderer.TriggerLabels | src/components/DynamicFormDisplay.tsx:195-209 | one trigger per popup form, in order, with its trigger text or "Get Started" when that is null or empty |
| Renderer.ValueOf | src/components/DynamicFormDisplay.tsx:106 | a value is read from the buffer by key, defaulting to "" |
| Renderer.OptionChoices | src/components/DynamicFormDisplay.tsx:124-128 | one option per stored option, value and text both the option, in stored order |
| Renderer.RenderField | src/components/DynamicFormDisplay.tsx:97-144 | textarea gives 4 rows, select gives an empty-value placeholder option ("Select an option" by default) then the options, anything else an input of that type; value read by label, required passed through |
| Renderer.RenderRows | src/components/DynamicFormDisplay.tsx:163-171 | one row per field in order, with its label, required marker and control |
| Renderer.RenderForm | src/components/DynamicFormDisplay.tsx:146-187 | a form shows the thank-you state exactly when it is the submitted form; otherwise one row per field, in order, with the field's label as caption, its required flag as marker, and its control |
| Renderer.ShownDescription | src/components/DynamicFormDisplay.tsx:221-223 | a description is shown exactly when it is non-null and non-empty |
| Renderer.ModalView | src/components/DynamicFormDisplay.tsx:216-225 | the dialog is shown exactly when open and a popup form exists, and it always shows the first popup form |
| Renderer.Heading | src/components/DynamicFormDisplay.tsx:245 | a section's heading is its section title when non-empty, else the form name |
| Renderer.Sections | src/components/DynamicFormDisplay.tsx:232-254 | one block per section form, in order, with heading, description and body |
| Renderer.ClickTrigger | src/components/DynamicFormDisplay.tsx:198-201 | any trigger opens the dialog with an empty buffer |
| Renderer.DismissPopup | src/components/DynamicFormDisplay.tsx:217 | closing the dialog keeps the buffer and the submitted id |
| Renderer.InputChange | src/components/DynamicFormDisplay.tsx:90-92 | an input sets one buffer key to the value and leaves every other key unchanged |
| Renderer.SubmitRequest | src/components/DynamicFormDisplay.tsx:85-88 | a submit sends the form's id and exactly the whole current buffer |
| Renderer.Submit | src/components/DynamicFormDisplay.tsx:63-83 | on success the form becomes the submitted one, the buffer empties and the submission is recorded; on failure nothing changes |
| Renderer.TimerFires | src/components/DynamicFormDisplay.tsx:75-78 | the timer clears the submitted id and closes the dialog |
| Renderer.Step | src/components/DynamicFormDisplay.tsx:63-92 | only a submit touches the sink: success appends the form id with the whole buffer, clears the buffer, marks the form submitted and schedules one timer; failure changes nothing; a timer fires only once scheduled and then clears the submitted id and closes the dialog; typing sets one key and keeps the others |
| Renderer.StepKeepsThanks | src/components/DynamicFormDisplay.tsx:63-92 | over every visitor event and timer firing, a thank-you state is shown only for the form whose submission was recorded last and always has a timer scheduled to clear it, and recorded submissions are never changed or removed |
| Renderer.TypedValueIsShown | src/components/DynamicFormDisplay.tsx:106-107 | the value typed into a field is what its control shows |
| Renderer.DispatchByType | src/components/DynamicFormDisplay.tsx:101-143 | the kind of control depends on the field type alone |
| Renderer.SelectWithoutOptions | src/components/DynamicFormDisplay.tsx:123-128 | a select field without options renders only the placeholder option |
| Renderer.TriggerOpensFirstPopup | src/components/DynamicFormDisplay.tsx:198-225 | after any trigger click the dialog shows the first popup form with every control empty, unless that form is still in its thank-you state |
| Renderer.TimerResetsSections | src/components/DynamicFormDisplay.tsx:72-78 | a submitted section form shows thanks until the timer fires and its inputs afterwards |
| Renderer.PopupLifecycle | src/components/DynamicFormDisplay.tsx:63-88 | open, type, submit: thank-you in the dialog and the typed value recorded; after the timer the dialog is closed with an empty buffer |
| Renderer.SharedBufferCrossesForms | src/components/DynamicFormDisplay.tsx:85-92 | a value typed into one form's field is sent with a submit of another form |

## Left out

- Backend calls, query caching and invalidation, and toast notifications: the table is a sequence of rows, each reply is `Ok` or `Failed`, and a listing is modelled only as its successful result (a failed or pending listing renders no forms).
- Markup, styling and animation: only the data-level rendering decisions are kept.
- Timer duration and id generation: the 2-second timer is a count of scheduled timers and a `TimerExpires` event that fires one of them, in any order relative to other events; field ids and backend-assigned columns are parameters.
- The in-flight submit (`isPending`, the disabled button): a submit and its reply are one step.
- In-flight builder requests: a create, save or delete and its reply are one step, so a double click on the create confirm button (which stays enabled while the insert is pending) and clicks made while a request is pending, such as selecting another form before a create reply arrives and overwrites that selection, are not modelled.
- Native browser enforcement of `required`, `email` and `tel`, which belongs to the browser.
- Concurrent admin sessions: saves are plain full overwrites applied one at a time; `Builder.LastSaveWins` states what that implies.
- `updated_at`: maintained by the backend, never read by this code. `created_at` is an integer timestamp.
- The internal shape of the stored `fields` blob: rows hold already-structured fields, so a malformed entry is not modelled.
- Field patches that carry `id` or `options`: no call site passes them.
- Buffer keys that collide with JavaScript object prototype properties.
- Sign-in, the telemetry set-up, and the presentational pages and navigation.
- Store.ListPublished: the backend query promises no order; the model lists in table order (`Store.ListPublishedAppend`), so any order the backend chooses is not modelled.

=== FILE: builder.dfy ===
/** The admin form builder: an editing session over one draft `CustomForm`,
    the field-list handlers, the publish toggle, and the create / select /
    save / delete workflows against the store. Each workflow that talks to
    the backend takes the backend's reply as a parameter. */
module Builder {
  import opened JsValues
  import opened Schema
  import opened Store

  /** The builder's screen state: the highlighted form, the draft being
      edited (seeded from a listed or created record), and the "create form"
      and "add field" inputs. */
  datatype Session = Session(
    selected: Option<CustomForm>,
    editing: Option<CustomForm>,
    creating: bool,
    newFormName: string,
    newField: NewField)

  const InitialSession := Session(None, None, false, "", BlankNewField)

  /** The admin screen together with the `custom_forms` table. */
  datatype Admin = Admin(session: Session, rows: seq<Row>)

  /** The add-field button: nothing happens without a draft or with a blank
      label; otherwise the field built from the inputs is appended under a
      fresh id and the inputs are reset. */
  function HandleAddField(s: Session, freshId: string): (r: Session)
    ensures s.editing.None? || IsBlank(s.newField.fieldLabel) ==> r == s
    ensures s.editing.Some? && !IsBlank(s.newField.fieldLabel) ==>
              && r.editing.Some?
              && r.editing.value == s.editing.value.(fields := r.editing.value.fields)
              && |r.editing.value.fields| == |s.editing.value.fields| + 1
              && r.editing.value.fields[..|s.editing.value.fields|] == s.editing.value.fields
              && r.editing.value.fields[|s.editing.value.fields|] == MakeField(s.newField, freshId)
              && r.newField == BlankNewField
              && r.selected == s.selected && r.creating == s.creating
              && r.newFormName == s.newFormName
  {
    if s.editing.None? || IsBlank(s.newField.fieldLabel) then s
    else
      var draft := s.editing.value;
      var fields := draft.fields + [MakeField(s.newField, freshId)];
      assert fields[..|draft.fields|] == draft.fields;
      s.(editing := Some(draft.(fields := fields)), newField := BlankNewField)
  }

  /** The remove button on a field row. */
  function HandleRemoveField(s: Session, fieldId: string): (r: Session)
    ensures s.editing.None? ==> r == s
    ensures s.editing.Some? ==>
              && r.editing.Some?
              && r.editing.value == s.editing.value.(fields := r.editing.value.fields)
              && r.editing.value.fields == RemoveField(s.editing.value.fields, fieldId)
              && r == s.(editing := r.editing)
  {
    if s.editing.None? then s
    else
      var draft := s.editing.value;
      s.(editing := Some(draft.(fields := RemoveField(draft.fields, fieldId))))
  }

  /** A change in a field row's label, type, placeholder or required input. */
  function HandleUpdateField(s: Session, fieldId: string, p: Patch): (r: Session)
    ensures s.editing.None? ==> r == s
    ensures s.editing.Some? ==>
              && r.editing.Some?
              && r.editing.value == s.editing.value.(fields := r.editing.value.fields)
              && r.editing.value.fields == UpdateField(s.editing.value.fields, fieldId, p)
              && r == s.(editing := r.editing)
  {
    if s.editing.None? then s
    else
      var draft := s.editing.value;
      s.(editing := Some(draft.(fields := UpdateField(draft.fields, fieldId, p))))
  }

  /** The publish toggle flips the draft's flag only; nothing reaches the
      store until a save. */
  function TogglePublish(s: Session): (r: Session)
    ensures s.editing.None? ==> r == s
    ensures s.editing.Some? ==>
              && r.editing.Some?
              && r.editing.value.isPublished == !s.editing.value.isPublished
              && r.editing.value == s.editing.value.(isPublished := r.editing.value.isPublished)
              && r == s.(editing := r.editing)
  {
    if s.editing.None? then s
    else s.(editing := Some(s.editing.value.(isPublished := !s.editing.value.isPublished)))
  }

  /** An edit of one form-level input of the draft. */
  datatype DraftEdit =
    | SetFormName(name: string)
    | SetDescription(text: string)
    | SetTargetPage(page: string)
    | SetDisplayType(display: DisplayType)
    | SetTriggerText(text: string)
    | SetSectionTitle(text: string)

  /** The trigger-text input is only on screen for a popup, the section
      title input only for a section. */
  predicate EditOnScreen(draft: CustomForm, e: DraftEdit) {
    match e
    case SetTriggerText(_) => DisplayName(draft.displayType) == "popup"
    case SetSectionTitle(_) => DisplayName(draft.displayType) == "section"
    case _ => true
  }

  /** The draft with one edit applied. */
  function ApplyEdit(draft: CustomForm, e: DraftEdit): (r: CustomForm)
    ensures r.id == draft.id && r.fields == draft.fields && r.createdAt == draft.createdAt
    ensures r.isPublished == draft.isPublished
    ensures r.formName == (if e.SetFormName? then e.name else draft.formName)
    ensures r.description == (if e.SetDescription? then Some(e.text) else draft.description)
    ensures r.targetPage == (if e.SetTargetPage? then e.page else draft.targetPage)
    ensures r.displayType == (if e.SetDisplayType? then e.display else draft.displayType)
    ensures r.popupTriggerText == (if e.SetTriggerText? then Some(e.text) else draft.popupTriggerText)
    ensures r.sectionTitle == (if e.SetSectionTitle? then Some(e.text) else draft.sectionTitle)
  {
    match e
    case SetFormName(v) => draft.(formName := v)
    case SetDescription(v) => draft.(description := Some(v))
    case SetTargetPage(v) => draft.(targetPage := v)
    case SetDisplayType(d) => draft.(displayType := d)
    case SetTriggerText(v) => draft.(popupTriggerText := Some(v))
    case SetSectionTitle(v) => draft.(sectionTitle := Some(v))
  }

  function HandleEdit(s: Session, e: DraftEdit): (r: Session)
    ensures s.editing.None? || !EditOnScreen(s.editing.value, e) ==> r == s
    ensures s.editing.Some? && EditOnScreen(s.editing.value, e) ==>
              r == s.(editing := Some(ApplyEdit(s.editing.value, e)))
  {
    if s.editing.None? || !EditOnScreen(s.editing.value, e) then s
    else s.(editing := Some(ApplyEdit(s.editing.value, e)))
  }

  /** The update `handleSave` issues, if any: the whole draft, and only when
      there is a draft with a (non-empty) id. */
  function SaveRequest(s: Session): (r: Option<CustomForm>)
    ensures r.Some? <==> s.editing.Some? && s.editing.value.id != ""
    ensures r.Some? ==> r.value == s.editing.value
  {
    if s.editing.Some? && s.editing.value.id != "" then s.editing else None
  }

  /** Save: the table after the update settles. The session is not touched
      either way, so a failed save keeps the draft for a retry. */
  function HandleSave(a: Admin, reply: Reply): (r: Admin)
    ensures r.session == a.session
    ensures SaveRequest(a.session).None? || reply == Failed ==> r.rows == a.rows
    ensures SaveRequest(a.session).Some? && reply == Ok ==>
              r.rows == UpdateRows(a.rows, a.session.editing.value)
  {
    match SaveRequest(a.session)
    case None => a
    case Some(draft) => if reply == Ok then a.(rows := UpdateRows(a.rows, draft)) else a
  }

  /** Clicking a form in the list loads it as both the selected and the
      draft form, discarding any unsaved draft. */
  function SelectForm(s: Session, form: CustomForm): (r: Session)
    ensures r.selected == Some(form) && r.editing == Some(form)
    ensures r.creating == s.creating && r.newFormName == s.newFormName && r.newField == s.newField
  {
    s.(selected := Some(form), editing := Some(form))
  }

  /** The "Create Form" button only opens the name input. */
  function OpenCreate(s: Session): (r: Session)
    ensures r.creating
    ensures r.(creating := s.creating) == s
  {
    s.(creating := true)
  }

  /** The cancel button closes and empties the name input. */
  function CancelCreate(s: Session): (r: Session)
    ensures !r.creating && r.newFormName == ""
    ensures r.selected == s.selected && r.editing == s.editing && r.newField == s.newField
  {
    s.(creating := false, newFormName := "")
  }

  /** The create confirm button, shown while creating and enabled for a
      non-blank name (the name itself is sent untrimmed). On success the new
      record becomes the selected and the draft form and the inputs close;
      on failure nothing changes. */
  function CreateForm(a: Admin, template: Row, reply: Reply): (r: Admin)
    requires !HasRow(a.rows, template.id)
    ensures !a.session.creating || IsBlank(a.session.newFormName) || reply == Failed ==> r == a
    ensures a.session.creating && !IsBlank(a.session.newFormName) && reply == Ok ==>
              var created := Normalise(NewRow(template, a.session.newFormName));
              && r.rows == Insert(a.rows, NewRow(template, a.session.newFormName))
              && r.session.selected == Some(created)
              && r.session.editing == Some(created)
              && created.formName == a.session.newFormName
              && created.targetPage == DefaultTargetPage && created.fields == []
              && !r.session.creating && r.session.newFormName == ""
              && r.session.newField == a.session.newField
  {
    if !a.session.creating || IsBlank(a.session.newFormName) || reply == Failed then a
    else
      var row := NewRow(template, a.session.newFormName);
      var created := Normalise(row);
      Admin(a.session.(newFormName := "", creating := false,
                       selected := Some(created), editing := Some(created)),
            Insert(a.rows, row))
  }

  /** The confirmed delete of a listed form. Success removes the row and
      clears both the selection and the draft, whichever form was deleted;
      failure changes nothing. */
  function DeleteForm(a: Admin, id: string, reply: Reply): (r: Admin)
    ensures reply == Failed ==> r == a
    ensures reply == Ok ==>
              && r.rows == DeleteRows(a.rows, id)
              && r.session == a.session.(selected := None, editing := None)
  {
    if reply == Failed then a
    else Admin(a.session.(selected := None, editing := None), DeleteRows(a.rows, id))
  }

  /** The pages a form can target, with the names the admin list shows. */
  const AvailablePages: seq<(string, string)> := [
    ("home", "Home Page"), ("services", "Services"), ("ai-consulting", "AI Consulting"),
    ("talent-solutions", "Talent Solutions"), ("nowrise-institute", "NowRise Institute"),
    ("careers", "Careers"), ("about", "About"), ("contact", "Contact")]

  /** The name of the first table entry for `page`, if any. */
  function LookupPage(table: seq<(string, string)>, page: string): (r: Option<string>)
    ensures r.None? <==> forall k :: 0 <= k < |table| ==> table[k].0 != page
    ensures r.Some? ==>
              exists k :: 0 <= k < |table| && table[k] == (page, r.value) && FirstFor(table, page, k)
  {
    if table == [] then None
    else if table[0].0 == page then
      assert FirstFor(table, page, 0);
      Some(table[0].1)
    else
      var r := LookupPage(table[1..], page);
      if r.Some? then
        var k :| 0 <= k < |table[1..]| && table[1..][k] == (page, r.value) && FirstFor(table[1..], page, k);
        assert table[k + 1] == (page, r.value);
        assert FirstFor(table, page, k + 1) by {
          forall j | 0 <= j < k + 1 ensures table[j].0 != page {
            if j > 0 {
              assert table[j] == table[1..][j - 1];
            }
          }
        }
        r
      else r
  }

  /** No entry before position `k` is for `page`. */
  predicate FirstFor(table: seq<(string, string)>, page: string, k: int) {
    forall j :: 0 <= j < k && j < |table| ==> table[j].0 != page
  }

  /** `availablePages.find(p => p.value === page)?.label || page`. */
  function PageLabel(page: string): (r: string)
    ensures (forall k :: 0 <= k < |AvailablePages| ==> AvailablePages[k].0 != page) ==> r == page
    ensures forall k :: 0 <= k < |AvailablePages| && AvailablePages[k].0 == page && FirstFor(AvailablePages, page, k) ==>
              r == (if AvailablePages[k].1 != "" then AvailablePages[k].1 else page)
  {
    var found := LookupPage(AvailablePages, page);
    forall k | 0 <= k < |AvailablePages| && AvailablePages[k].0 == page && FirstFor(AvailablePages, page, k)
      ensures found == Some(AvailablePages[k].1)
    {
      var m :| 0 <= m < |AvailablePages| && AvailablePages[m] == (page, found.value) && FirstFor(AvailablePages, page, m);
      assert !(m < k) && !(k < m);
    }
    Or(found, page)
  }

  /** One entry of the admin form list. */
  datatype ListEntry = ListEntry(name: string, published: bool, pageLabel: string, placement: string)

  /** A list entry shows "Popup" for a popup and "Section" for anything
      else, including a display type that is neither. */
  function Entry(form: CustomForm): (e: ListEntry)
    ensures e.name == form.formName && e.published == form.isPublished
    ensures e.pageLabel == PageLabel(form.targetPage)
    ensures e.placement == "Popup" <==> DisplayName(form.displayType) == "popup"
    ensures e.placement != "Popup" ==> e.placement == "Section"
  {
    ListEntry(form.formName, form.isPublished, PageLabel(form.targetPage),
              if DisplayName(form.displayType) == "popup" then "Popup" else "Section")
  }

  /** Everything an admin can do on the screen. */
  datatype Event =
    | ClickCreate
    | ClickCancelCreate
    | TypeFormName(name: string)
    | TypeNewField(nf: NewField)
    | ConfirmCreate(template: Row, createReply: Reply)
    | ClickForm(form: CustomForm)
    | ConfirmDelete(deleteId: string, deleteReply: Reply)
    | EditDraft(edit: DraftEdit)
    | ClickAddField(freshId: string)
    | ClickRemoveField(removeId: string)
    | ChangeField(fieldId: string, patch: Patch)
    | ClickPublish
    | ClickSave(saveReply: Reply)

  /** When an event can happen: the name input is on screen only while
      creating and the add-field inputs only while there is a draft; a
      clicked form is one of the listed forms; the display type select
      offers only "popup" and "section"; the backend hands out a fresh
      primary key and field ids come fresh. */
  predicate Admissible(a: Admin, e: Event) {
    match e
    case TypeFormName(_) => a.session.creating
    case TypeNewField(_) => a.session.editing.Some?
    case ConfirmCreate(template, _) => !HasRow(a.rows, template.id)
    case ClickForm(form) => form in ListAll(a.rows)
    case EditDraft(SetDisplayType(display)) => display == Popup || display == Section
    case ClickAddField(id) => a.session.editing.Some? ==> !HasId(a.session.editing.value.fields, id)
    case _ => true
  }

  /** One admin action. Only the create, delete and save confirmations
      reach the table; a save leaves the screen as it was; typing into an
      input changes that input alone. */
  function Step(a: Admin, e: Event): (r: Admin)
    requires Admissible(a, e)
    ensures !(e.ConfirmCreate? || e.ConfirmDelete? || e.ClickSave?) ==> r.rows == a.rows
    ensures e.ClickSave? ==> r.session == a.session
    ensures e.TypeFormName? ==> r == a.(session := a.session.(newFormName := e.name))
    ensures e.TypeNewField? ==> r == a.(session := a.session.(newField := e.nf))
    ensures e.ClickForm? ==> r.session.selected == Some(e.form) && r.session.editing == Some(e.form)
    ensures e.ClickPublish? && a.session.editing.Some? ==>
              r.session.editing.Some? && r.session.editing.value.isPublished == !a.session.editing.value.isPublished
  {
    match e
    case ClickCreate => a.(session := OpenCreate(a.session))
    case ClickCancelCreate => a.(session := CancelCreate(a.session))
    case TypeFormName(name) => a.(session := a.session.(newFormName := name))
    case TypeNewField(nf) => a.(session := a.session.(newField := nf))
    case ConfirmCreate(template, reply) => CreateForm(a, template, reply)
    case ClickForm(form) => a.(session := SelectForm(a.session, form))
    case ConfirmDelete(id, reply) => DeleteForm(a, id, reply)
    case EditDraft(edit) => a.(session := HandleEdit(a.session, edit))
    case ClickAddField(id) => a.(session := HandleAddField(a.session, id))
    case ClickRemoveField(id) => a.(session := HandleRemoveField(a.session, id))
    case ChangeField(id, p) => a.(session := HandleUpdateField(a.session, id, p))
    case ClickPublish => a.(session := TogglePublish(a.session))
    case ClickSave(reply) => HandleSave(a, reply)
  }

  /** The session invariant: there is a draft exactly when a form is
      selected, it is a draft of that form, its field ids are distinct and
      its display type has one spelling, and the table holds its id; the
      name input is empty while it
      is closed; the table's primary keys are unique and every stored form
      has distinct field ids. */
  predicate Good(a: Admin) {
    && (a.session.selected.Some? <==> a.session.editing.Some?)
    && (a.session.editing.Some? ==>
          && a.session.editing.value.id == a.session.selected.value.id
          && DistinctIds(a.session.editing.value.fields)
          && CanonicalDisplay(a.session.editing.value.displayType))
    && (a.session.editing.Some? ==> HasRow(a.rows, a.session.editing.value.id))
    && (!a.session.creating ==> a.session.newFormName == "")
    && UniqueIds(a.rows)
    && StoredFieldsDistinct(a.rows)
  }

  /** Every stored form, read back, has distinct field ids. */
  predicate StoredFieldsDistinct(rows: seq<Row>) {
    forall row :: row in rows ==> DistinctIds(Normalise(row).fields)
  }

  /** A listed form of such a table has distinct field ids and a display
      type of one spelling, so loading it into the draft keeps `Good`. */
  lemma ListedFormIsWellFormed(rows: seq<Row>, form: CustomForm)
    requires StoredFieldsDistinct(rows) && form in ListAll(rows)
    ensures DistinctIds(form.fields) && CanonicalDisplay(form.displayType)
    ensures HasRow(rows, form.id)
  {
    var row :| row in rows && Normalise(row) == form;
    var k :| 0 <= k < |rows| && rows[k] == row;
  }

  /** Saving a draft with distinct field ids keeps every stored form's
      field ids distinct. */
  lemma UpdateKeepsStoredDistinct(rows: seq<Row>, draft: CustomForm)
    requires StoredFieldsDistinct(rows) && DistinctIds(draft.fields)
    ensures StoredFieldsDistinct(UpdateRows(rows, draft))
  {
    var saved := UpdateRows(rows, draft);
    forall row | row in saved ensures DistinctIds(Normalise(row).fields) {
      var m :| 0 <= m < |saved| && saved[m] == row;
      if rows[m].id == draft.id {
        assert Normalise(row).fields == draft.fields;
      } else {
        assert row == rows[m];
      }
    }
  }

  /** Every admin action keeps the invariant. */
  lemma StepKeepsGood(a: Admin, e: Event)
    requires Good(a) && Admissible(a, e)
    ensures Good(Step(a, e))
  {
    match e
    case ClickAddField(id) =>
      if a.session.editing.Some? && !IsBlank(a.session.newField.fieldLabel) {
        AppendKeepsDistinct(a.session.editing.value.fields, MakeField(a.session.newField, id));
      }
    case ClickRemoveField(id) =>
      if a.session.editing.Some? {
        RemoveKeepsDistinct(a.session.editing.value.fields, id);
      }
    case ChangeField(id, p) =>
      if a.session.editing.Some? {
        UpdateKeepsDistinct(a.session.editing.value.fields, id, p);
      }
    case ConfirmDelete(id, reply) =>
      if reply == Ok {
        DeleteKeepsUnique(a.rows, id);
      }
    case ClickSave(reply) =>
      if SaveRequest(a.session).Some? && reply == Ok {
        UpdateKeepsUnique(a.rows, a.session.editing.value);
        UpdateKeepsStoredDistinct(a.rows, a.session.editing.value);
        var k :| 0 <= k < |a.rows| && a.rows[k].id == a.session.editing.value.id;
        assert UpdateRows(a.rows, a.session.editing.value)[k].id == a.session.editing.value.id;
      }
    case ClickForm(form) =>
      ListedFormIsWellFormed(a.rows, form);
    case ConfirmCreate(template, reply) =>
      if a.session.creating && !IsBlank(a.session.newFormName) && reply == Ok {
        var row := NewRow(template, a.session.newFormName);
        var rows := Insert(a.rows, row);
        assert rows == a.rows + [row];
        assert Normalise(row).fields == [];
        assert rows[|a.rows|].id == template.id;
      }
    case _ =>
  }

  lemma {:induction false} DeleteKeepsUnique(rows: seq<Row>, id: string)
    requires UniqueIds(rows)
    ensures UniqueIds(DeleteRows(rows, id))
    decreases |rows|
  {
    if rows != [] {
      var rest := rows[1..];
      assert UniqueIds(rest) by {
        forall i, j | 0 <= i < j < |rest| ensures rest[i].id != rest[j].id {
          assert rest[i] == rows[i + 1] && rest[j] == rows[j + 1];
        }
      }
      DeleteKeepsUnique(rest, id);
      var tail := DeleteRows(rest, id);
      if rows[0].id != id {
        forall row | row in tail ensures row.id != rows[0].id {
          var m :| 0 <= m < |rest| && rest[m] == row;
          assert rows[m + 1] == row;
        }
        UniqueCons(rows[0], tail);
      }
    }
  }

  /** A row whose id is new to a table with unique ids can go in front. */
  lemma UniqueCons(row: Row, rows: seq<Row>)
    requires UniqueIds(rows)
    requires forall r :: r in rows ==> r.id != row.id
    ensures UniqueIds([row] + rows)
  {
    var all := [row] + rows;
    forall i, j | 0 <= i < j < |all| ensures all[i].id != all[j].id {
      assert all[j] == rows[j - 1];
      if i > 0 {
        assert all[i] == rows[i - 1];
      }
    }
  }

  lemma UpdateKeepsUnique(rows: seq<Row>, draft: CustomForm)
    requires UniqueIds(rows)
    ensures UniqueIds(UpdateRows(rows, draft))
  {
  }

  /** Toggling publish twice gives the session back. */
  lemma TogglePublishTwice(s: Session)
    ensures TogglePublish(TogglePublish(s)) == s
  {
  }

  /** A failed save leaves both the draft and the table as they were. */
  lemma FailedSaveKeepsDraft(a: Admin)
    ensures HandleSave(a, Failed) == a
  {
  }

  /** Save then list: the saved record is listed, and every listed record
      with the draft's id carries every attribute the admin last saved,
      unchanged. */
  lemma SaveRoundTrip(a: Admin)
    requires a.session.editing.Some? && a.session.editing.value.id != ""
    requires HasRow(a.rows, a.session.editing.value.id)
    requires CanonicalDisplay(a.session.editing.value.displayType)
    ensures var draft := a.session.editing.value;
            var rows := HandleSave(a, Ok).rows;
            exists f :: f in ListAll(rows) && f.id == draft.id
    ensures var draft := a.session.editing.value;
            var rows := HandleSave(a, Ok).rows;
            forall f :: f in ListAll(rows) && f.id == draft.id ==> SameMutableAttributes(f, draft)
  {
    var draft := a.session.editing.value;
    assert SaveRequest(a.session) == Some(draft);
    var rows := UpdateRows(a.rows, draft);
    assert HandleSave(a, Ok).rows == rows;
    SavedIsListed(a.rows, draft);
    forall f | f in ListAll(rows) && f.id == draft.id ensures SameMutableAttributes(f, draft) {
      var row :| row in rows && Normalise(row) == f;
      SavedRowCarriesDraft(a.rows, draft, row);
    }
  }

  /** A save of a stored id leaves a record with that id in the listing. */
  lemma SavedIsListed(rows: seq<Row>, draft: CustomForm)
    requires HasRow(rows, draft.id)
    ensures exists f :: f in ListAll(UpdateRows(rows, draft)) && f.id == draft.id
  {
    var saved := UpdateRows(rows, draft);
    var k :| 0 <= k < |rows| && rows[k].id == draft.id;
    assert saved[k] in saved;
    assert Normalise(saved[k]) in ListAll(saved);
  }

  /** One row with the saved id, after the save, read back. */
  lemma SavedRowCarriesDraft(rows: seq<Row>, draft: CustomForm, row: Row)
    requires CanonicalDisplay(draft.displayType)
    requires row in UpdateRows(rows, draft) && row.id == draft.id
    ensures SameMutableAttributes(Normalise(row), draft)
  {
    var saved := UpdateRows(rows, draft);
    var m :| 0 <= m < |saved| && saved[m] == row;
    assert saved[m] == Overwrite(rows[m], draft);
  }

  /** In every state the invariant allows, saving the draft and listing
      gives the draft back. */
  lemma GoodSaveRoundTrip(a: Admin)
    requires Good(a) && a.session.editing.Some? && a.session.editing.value.id != ""
    ensures var draft := a.session.editing.value;
            var rows := HandleSave(a, Ok).rows;
            && (exists f :: f in ListAll(rows) && f.id == draft.id)
            && forall f :: f in ListAll(rows) && f.id == draft.id ==> SameMutableAttributes(f, draft)
  {
    SaveRoundTrip(a);
  }

  /** A published form with no fields, once saved, is listed on its page. */
  lemma SavedPublishedIsListed(a: Admin)
    requires a.session.editing.Some? && a.session.editing.value.id != ""
    requires HasRow(a.rows, a.session.editing.value.id)
    requires a.session.editing.value.isPublished
    ensures var draft := a.session.editing.value;
            exists f :: f in ListPublished(HandleSave(a, Ok).rows, draft.targetPage) && f.id == draft.id
  {
    var draft := a.session.editing.value;
    var rows := HandleSave(a, Ok).rows;
    var k :| 0 <= k < |a.rows| && a.rows[k].id == draft.id;
    assert rows[k] == Overwrite(a.rows[k], draft);
    assert rows[k] in rows;
    assert Normalise(rows[k]) in ListPublished(rows, draft.targetPage);
  }

  /** Saves are full overwrites with no version check: of two saves of the
      same form, the later one alone decides the record. */
  lemma LastSaveWins(rows: seq<Row>, first: CustomForm, second: CustomForm)
    requires first.id == second.id
    ensures UpdateRows(UpdateRows(rows, first), second) == UpdateRows(rows, second)
  {
  }
}

=== FILE: jsvalues.dfy ===
/** Values as the form engine's TypeScript code sees them: nullable strings,
    the `||` fallback idiom, and the whitespace test behind `!s.trim()`. */
module JsValues {

  /** A nullable (or optional) value: `T | null` / `T | undefined`. */
  datatype Option<+T> = None | Some(value: T) {
    function GetOr(default: T): (r: T)
      ensures Some? ==> r == value
      ensures None? ==> r == default
    {
      match this
      case Some(v) => v
      case None => default
    }
  }

  /** A nullable string is truthy when it is present and non-empty. */
  predicate Truthy(o: Option<string>) {
    o.Some? && o.value != ""
  }

  /** `o || fallback` for a nullable string: the empty string and null both
      fall back. */
  function Or(o: Option<string>, fallback: string): (r: string)
    ensures Truthy(o) ==> r == o.value
    ensures !Truthy(o) ==> r == fallback
  {
    if o.Some? && o.value != "" then o.value else fallback
  }

  /** The code points `String.prototype.trim` strips: the WhiteSpace and
      LineTerminator productions of ECMAScript (section 12.2 and 12.3 of
      ECMA-262), including every space separator of category Zs. */
  predicate IsJsWhitespace(c: char) {
    || c == '\t' || c == '\U{000B}' || c == '\U{000C}' || c == ' '
    || c == '\U{00A0}' || c == '\U{FEFF}'
    || c == '\n' || c == '\r' || c == '\U{2028}' || c == '\U{2029}'
    || c == '\U{1680}' || ('\U{2000}' <= c <= '\U{200A}')
    || c == '\U{202F}' || c == '\U{205F}' || c == '\U{3000}'
  }

  /** `!s.trim()`: the string is empty once leading and trailing whitespace
      is removed, that is, every character is whitespace. */
  predicate IsBlank(s: string) {
    forall i :: 0 <= i < |s| ==> IsJsWhitespace(s[i])
  }

  /** A reference definition of `s.trim()`, stripping whitespace from both
      ends; `TrimEmptyIffBlank` ties it to `IsBlank`. */
  function Trim(s: string): (r: string)
    ensures |r| <= |s|
    ensures r != [] ==> !IsJsWhitespace(r[0]) && !IsJsWhitespace(r[|r| - 1])
    decreases |s|
  {
    if s == [] then []
    else if IsJsWhitespace(s[0]) then Trim(s[1..])
    else if IsJsWhitespace(s[|s| - 1]) then Trim(s[..|s| - 1])
    else s
  }

  lemma {:induction false} TrimEmptyIffBlank(s: string)
    ensures Trim(s) == [] <==> IsBlank(s)
    decreases |s|
  {
    if s == [] {
    } else if IsJsWhitespace(s[0]) {
      TrimEmptyIffBlank(s[1..]);
      assert IsBlank(s) <==> IsBlank(s[1..]) by {
        if IsBlank(s[1..]) {
          forall i | 0 <= i < |s| ensures IsJsWhitespace(s[i]) {
            if i > 0 { assert s[i] == s[1..][i - 1]; }
          }
        }
      }
    } else if IsJsWhitespace(s[|s| - 1]) {
      // s[0] survives on the left, so neither s nor s minus its last
      // character is blank
      var t := s[..|s| - 1];
      assert |s| >= 2;
      assert t[0] == s[0];
      TrimEmptyIffBlank(t);
    } else {
      assert !IsJsWhitespace(s[0]);
    }
  }
}

=== FILE: renderer.dfy ===
/** The public form renderer of one page: the published forms split into
    popup triggers and inline sections, the single shared input buffer keyed
    by field label, the per-type widget dispatch, and the submit state
    machine (idle, submitted(formId), cleared by a timer). The 2-second
    timer is an explicit `TimerFires` event. */
module Renderer {
  import opened JsValues
  import opened Schema
  import opened Store

  /** The component's state. `formData` is one map for every form on the
      page; `submitted` is the id of the form last submitted successfully. */
  datatype Page = Page(popupOpen: bool, formData: map<string, string>, submitted: Option<string>)

  const InitialPage := Page(false, map[], None)

  predicate IsPopup(f: CustomForm) {
    DisplayName(f.displayType) == "popup"
  }

  predicate IsSection(f: CustomForm) {
    DisplayName(f.displayType) == "section"
  }

  /** `forms.filter(f => f.display_type === "popup")`. */
  function PopupForms(forms: seq<CustomForm>): (r: seq<CustomForm>)
    ensures |r| <= |forms|
    ensures forall f :: f in r <==> f in forms && IsPopup(f)
  {
    if forms == [] then []
    else (if IsPopup(forms[0]) then [forms[0]] else []) + PopupForms(forms[1..])
  }

  /** `forms.filter(f => f.display_type === "section")`. */
  function SectionForms(forms: seq<CustomForm>): (r: seq<CustomForm>)
    ensures |r| <= |forms|
    ensures forall f :: f in r <==> f in forms && IsSection(f)
  {
    if forms == [] then []
    else (if IsSection(forms[0]) then [forms[0]] else []) + SectionForms(forms[1..])
  }

  /** The forms with any other display type, which are never rendered. */
  function UnplacedForms(forms: seq<CustomForm>): (r: seq<CustomForm>)
    ensures forall f :: f in r <==> f in forms && !IsPopup(f) && !IsSection(f)
  {
    if forms == [] then []
    else (if !IsPopup(forms[0]) && !IsSection(forms[0]) then [forms[0]] else [])
         + UnplacedForms(forms[1..])
  }

  /** The popup filter keeps the listing's order: it distributes over
      concatenation. */
  lemma {:induction false} PopupFormsAppend(a: seq<CustomForm>, b: seq<CustomForm>)
    ensures PopupForms(a + b) == PopupForms(a) + PopupForms(b)
    decreases |a|
  {
    if a == [] {
      assert a + b == b;
    } else {
      assert (a + b)[0] == a[0];
      assert (a + b)[1..] == a[1..] + b;
      PopupFormsAppend(a[1..], b);
    }
  }

  /** The section filter keeps the listing's order too. */
  lemma {:induction false} SectionFormsAppend(a: seq<CustomForm>, b: seq<CustomForm>)
    ensures SectionForms(a + b) == SectionForms(a) + SectionForms(b)
    decreases |a|
  {
    if a == [] {
      assert a + b == b;
    } else {
      assert (a + b)[0] == a[0];
      assert (a + b)[1..] == a[1..] + b;
      SectionFormsAppend(a[1..], b);
    }
  }

  /** Popups, sections and the unplaced rest split the listing: every form
      lands in exactly one of the three. */
  lemma {:induction false} PartitionCovers(forms: seq<CustomForm>)
    ensures multiset(PopupForms(forms)) + multiset(SectionForms(forms)) + multiset(UnplacedForms(forms))
            == multiset(forms)
    decreases |forms|
  {
    if forms != [] {
      PartitionCovers(forms[1..]);
      assert forms == [forms[0]] + forms[1..];
    }
  }

  const DefaultTriggerText := "Get Started"

  /** One floating trigger button per popup form, in order, labelled with its
      trigger text or "Get Started" when that is null or empty. */
  function TriggerLabels(forms: seq<CustomForm>): (r: seq<string>)
    ensures |r| == |PopupForms(forms)|
    ensures forall k :: 0 <= k < |r| ==> r[k] == Or(PopupForms(forms)[k].popupTriggerText, DefaultTriggerText)
  {
    if forms == [] then []
    else if IsPopup(forms[0]) then [Or(forms[0].popupTriggerText, DefaultTriggerText)] + TriggerLabels(forms[1..])
    else TriggerLabels(forms[1..])
  }

  /** `formData[key] || ""`. */
  function ValueOf(data: map<string, string>, key: string): (r: string)
    ensures key in data ==> r == data[key]
    ensures key !in data ==> r == ""
  {
    if key in data then data[key] else ""
  }

  /** One `<option>`: its value and its text. */
  datatype Choice = Choice(value: string, text: string)

  /** The input control rendered for one field. */
  datatype Widget =
    | TextArea(value: string, placeholder: Option<string>, required: bool, rows: nat)
    | Dropdown(value: string, choices: seq<Choice>, required: bool)
    | Input(inputType: string, value: string, placeholder: Option<string>, required: bool)

  const TextAreaRows := 4
  const DefaultSelectPlaceholder := "Select an option"

  /** `options.map(opt => <option value={opt}>{opt}</option>)`. */
  function OptionChoices(opts: seq<string>): (r: seq<Choice>)
    ensures |r| == |opts|
    ensures forall k :: 0 <= k < |r| ==> r[k].value == opts[k] && r[k].text == opts[k]
  {
    if opts == [] then [] else [Choice(opts[0], opts[0])] + OptionChoices(opts[1..])
  }

  /** `renderField`: the control follows the field's type alone; the value is
      read from the shared buffer by the field's label. */
  function RenderField(f: FormField, data: map<string, string>): (w: Widget)
    ensures w.value == ValueOf(data, f.fieldLabel) && w.required == f.required
    ensures w.TextArea? <==> TypeName(f.kind) == "textarea"
    ensures w.Dropdown? <==> TypeName(f.kind) == "select"
    ensures w.TextArea? ==> w.rows == TextAreaRows && w.placeholder == f.placeholder
    ensures w.Input? ==> w.inputType == TypeName(f.kind) && w.placeholder == f.placeholder
    ensures w.Dropdown? ==>
              var opts := f.options.GetOr([]);
              && |w.choices| == |opts| + 1
              && w.choices[0] == Choice("", Or(f.placeholder, DefaultSelectPlaceholder))
              && forall k :: 0 <= k < |opts| ==> w.choices[k + 1] == Choice(opts[k], opts[k])
  {
    var value := ValueOf(data, f.fieldLabel);
    if TypeName(f.kind) == "textarea" then
      TextArea(value, f.placeholder, f.required, TextAreaRows)
    else if TypeName(f.kind) == "select" then
      Dropdown(value,
               [Choice("", Or(f.placeholder, DefaultSelectPlaceholder))] + OptionChoices(f.options.GetOr([])),
               f.required)
    else
      Input(TypeName(f.kind), value, f.placeholder, f.required)
  }

  /** One labelled row of a rendered form: caption, required marker, control. */
  datatype InputRow = InputRow(caption: string, marked: bool, widget: Widget)

  /** A form's body: the thank-you state once it was submitted, its inputs
      and submit button otherwise. */
  datatype Body = ThankYou | Inputs(rows: seq<InputRow>)

  function RenderRows(fields: seq<FormField>, data: map<string, string>): (r: seq<InputRow>)
    ensures |r| == |fields|
    ensures forall k :: 0 <= k < |r| ==>
              r[k] == InputRow(fields[k].fieldLabel, fields[k].required, RenderField(fields[k], data))
  {
    if fields == [] then []
    else [InputRow(fields[0].fieldLabel, fields[0].required, RenderField(fields[0], data))]
         + RenderRows(fields[1..], data)
  }

  function RenderForm(form: CustomForm, p: Page): (b: Body)
    ensures b.ThankYou? <==> p.submitted == Some(form.id)
    ensures b.Inputs? ==> |b.rows| == |form.fields|
    ensures b.Inputs? ==> forall k :: 0 <= k < |b.rows| ==>
              && b.rows[k].caption == form.fields[k].fieldLabel
              && b.rows[k].marked == form.fields[k].required
              && b.rows[k].widget == RenderField(form.fields[k], p.formData)
  {
    if p.submitted == Some(form.id) then ThankYou else Inputs(RenderRows(form.fields, p.formData))
  }

  /** The popup dialog: title, description when non-empty, body. */
  datatype Modal = Modal(title: string, description: Option<string>, body: Body)

  /** Shown only as a non-empty paragraph. */
  function ShownDescription(form: CustomForm): (r: Option<string>)
    ensures r.Some? <==> Truthy(form.description)
    ensures r.Some? ==> r == form.description
  {
    if Truthy(form.description) then form.description else None
  }

  /** The dialog, when open, always shows the first popup form, whichever
      trigger was clicked. */
  function ModalView(forms: seq<CustomForm>, p: Page): (r: Option<Modal>)
    ensures r.Some? <==> p.popupOpen && |PopupForms(forms)| > 0
    ensures r.Some? ==>
              var first := PopupForms(forms)[0];
              r.value == Modal(first.formName, ShownDescription(first), RenderForm(first, p))
  {
    var popups := PopupForms(forms);
    if p.popupOpen && |popups| > 0 then
      Some(Modal(popups[0].formName, ShownDescription(popups[0]), RenderForm(popups[0], p)))
    else None
  }

  /** An inline section: heading, description when non-empty, body. */
  datatype SectionView = SectionView(heading: string, description: Option<string>, body: Body)

  /** `section_title || form_name`. */
  function Heading(form: CustomForm): (h: string)
    ensures Truthy(form.sectionTitle) ==> h == form.sectionTitle.value
    ensures !Truthy(form.sectionTitle) ==> h == form.formName
  {
    Or(form.sectionTitle, form.formName)
  }

  /** The section forms, one block each, in listing order. */
  function Sections(forms: seq<CustomForm>, p: Page): (r: seq<SectionView>)
    ensures |r| == |SectionForms(forms)|
    ensures forall k :: 0 <= k < |r| ==>
              var s := SectionForms(forms)[k];
              r[k] == SectionView(Heading(s), ShownDescription(s), RenderForm(s, p))
  {
    if forms == [] then []
    else if IsSection(forms[0]) then
      [SectionView(Heading(forms[0]), ShownDescription(forms[0]), RenderForm(forms[0], p))]
      + Sections(forms[1..], p)
    else Sections(forms[1..], p)
  }

  /** Any trigger button: open the dialog with an empty buffer. */
  function ClickTrigger(p: Page): (r: Page)
    ensures r.popupOpen && r.formData == map[] && r.submitted == p.submitted
  {
    p.(popupOpen := true, formData := map[])
  }

  /** The dialog's own close (`onOpenChange(false)`); the buffer is kept. */
  function DismissPopup(p: Page): (r: Page)
    ensures !r.popupOpen && r.formData == p.formData && r.submitted == p.submitted
  {
    p.(popupOpen := false)
  }

  /** `handleInputChange(field.label, value)`: one key of the shared buffer
      is set; every other key keeps its value. */
  function InputChange(p: Page, key: string, value: string): (r: Page)
    ensures r.popupOpen == p.popupOpen && r.submitted == p.submitted
    ensures ValueOf(r.formData, key) == value
    ensures r.formData.Keys == p.formData.Keys + {key}
    ensures forall other :: other != key && other in p.formData ==> r.formData[other] == p.formData[other]
  {
    p.(formData := p.formData[key := value])
  }

  /** What a submit sends: the form's id and the whole shared buffer, not
      just this form's labels. */
  function SubmitRequest(p: Page, form: CustomForm): (s: Submission)
    ensures s.formId == form.id && s.data == p.formData
  {
    Submission(form.id, p.formData)
  }

  /** The submit of one form, settled: on success the form is marked
      submitted, the buffer cleared and the submission recorded; on failure
      nothing changes. */
  function Submit(p: Page, sink: seq<Submission>, form: CustomForm, reply: Reply): (r: (Page, seq<Submission>))
    ensures reply == Failed ==> r == (p, sink)
    ensures reply == Ok ==>
              && r.0 == Page(p.popupOpen, map[], Some(form.id))
              && r.1 == sink + [Submission(form.id, p.formData)]
  {
    var sink' := RecordSubmission(sink, SubmitRequest(p, form), reply);
    if reply == Ok then (p.(submitted := Some(form.id), formData := map[]), sink')
    else (p, sink')
  }

  /** The timer set on success: `submitted` is cleared for every form and
      the dialog closes. */
  function TimerFires(p: Page): (r: Page)
    ensures r.submitted == None && !r.popupOpen && r.formData == p.formData
  {
    p.(submitted := None, popupOpen := false)
  }

  /** A value typed into a field is what that field's control shows. */
  lemma TypedValueIsShown(p: Page, f: FormField, v: string)
    ensures RenderField(f, InputChange(p, f.fieldLabel, v).formData).value == v
  {
  }

  /** Two fields of the same type get the same kind of control. */
  lemma DispatchByType(f: FormField, g: FormField, data: map<string, string>)
    requires TypeName(f.kind) == TypeName(g.kind)
    ensures RenderField(f, data).TextArea? == RenderField(g, data).TextArea?
    ensures RenderField(f, data).Dropdown? == RenderField(g, data).Dropdown?
    ensures RenderField(f, data).Input? == RenderField(g, data).Input?
  {
  }

  /** A dropdown without options degrades to its placeholder alone. */
  lemma SelectWithoutOptions(f: FormField, data: map<string, string>)
    requires TypeName(f.kind) == "select" && f.options.None?
    ensures RenderField(f, data).choices == [Choice("", Or(f.placeholder, DefaultSelectPlaceholder))]
  {
  }

  /** Just after a trigger click the dialog shows the first popup form with
      every control empty, unless that form is still in its thank-you
      state. */
  lemma TriggerOpensFirstPopup(forms: seq<CustomForm>, p: Page)
    requires |PopupForms(forms)| > 0
    ensures var m := ModalView(forms, ClickTrigger(p));
            var first := PopupForms(forms)[0];
            && m.Some? && m.value.title == first.formName
            && (p.submitted != Some(first.id) ==>
                  && m.value.body.Inputs?
                  && forall k :: 0 <= k < |m.value.body.rows| ==> m.value.body.rows[k].widget.value == "")
  {
  }

  /** The timer clears the thank-you state of a section form too, so its
      inputs come back (section forms have no container to close). */
  lemma TimerResetsSections(forms: seq<CustomForm>, p: Page, k: nat)
    requires k < |SectionForms(forms)|
    requires p.submitted == Some(SectionForms(forms)[k].id)
    ensures Sections(forms, p)[k].body.ThankYou?
    ensures Sections(forms, TimerFires(p))[k].body.Inputs?
  {
  }

  /** The popup lifecycle: open, type, submit successfully, thank-you, and
      after the timer closed again with an empty buffer. */
  lemma PopupLifecycle(forms: seq<CustomForm>, sink: seq<Submission>, key: string, v: string)
    requires |PopupForms(forms)| > 0
    ensures var first := PopupForms(forms)[0];
            var typedIn := InputChange(ClickTrigger(InitialPage), key, v);
            var (done, sink') := Submit(typedIn, sink, first, Ok);
            var closed := TimerFires(done);
            && ModalView(forms, done).Some? && ModalView(forms, done).value.body == ThankYou
            && sink' == sink + [Submission(first.id, map[key := v])]
            && !closed.popupOpen && closed.formData == map[] && closed.submitted == None
            && ModalView(forms, closed).None?
  {
  }

  /** Every form on the page shares one buffer: a value typed into one
      section form's field is sent with a submit of another form. */
  lemma SharedBufferCrossesForms(a: CustomForm, b: CustomForm, sink: seq<Submission>)
    requires IsSection(a) && IsSection(b) && a.id != b.id
    requires |b.fields| > 0
    ensures var typed := InputChange(InitialPage, b.fields[0].fieldLabel, "x");
            var (_, sink') := Submit(typed, sink, a, Ok);
            && sink'[|sink|].formId == a.id
            && b.fields[0].fieldLabel in sink'[|sink|].data
  {
  }

  /** A visitor's page, the submission sink, and the number of timers a
      successful submit has scheduled that have not yet fired. */
  datatype Visitor = Visitor(page: Page, sink: seq<Submission>, pendingTimers: nat)

  /** Everything a visitor can do, and a scheduled timer firing. */
  datatype Event =
    | ClickAnyTrigger
    | CloseDialog
    | TypeInto(key: string, value: string)
    | SubmitForm(form: CustomForm, reply: Reply)
    | TimerExpires

  /** One event. Only a submit touches the sink, and only a successful one
      schedules a timer; a timer fires only once scheduled. */
  function Step(v: Visitor, e: Event): (r: Visitor)
    ensures !e.SubmitForm? ==> r.sink == v.sink
    ensures e.ClickAnyTrigger? ==>
              r.page.popupOpen && r.page.formData == map[] && r.page.submitted == v.page.submitted
              && r.pendingTimers == v.pendingTimers
    ensures e.CloseDialog? ==>
              !r.page.popupOpen && r.page.formData == v.page.formData && r.page.submitted == v.page.submitted
              && r.pendingTimers == v.pendingTimers
    ensures e.TypeInto? ==>
              && r.page.popupOpen == v.page.popupOpen && r.page.submitted == v.page.submitted
              && ValueOf(r.page.formData, e.key) == e.value
              && (forall other :: other != e.key && other in v.page.formData ==>
                    other in r.page.formData && r.page.formData[other] == v.page.formData[other])
              && r.pendingTimers == v.pendingTimers
    ensures e.SubmitForm? && e.reply == Failed ==> r == v
    ensures e.SubmitForm? && e.reply == Ok ==>
              && r.sink == v.sink + [Submission(e.form.id, v.page.formData)]
              && r.page == Page(v.page.popupOpen, map[], Some(e.form.id))
              && r.pendingTimers == v.pendingTimers + 1
    ensures e.TimerExpires? && v.pendingTimers == 0 ==> r == v
    ensures e.TimerExpires? && v.pendingTimers > 0 ==>
              && r.page.submitted == None && !r.page.popupOpen && r.page.formData == v.page.formData
              && r.pendingTimers == v.pendingTimers - 1
  {
    match e
    case ClickAnyTrigger => v.(page := ClickTrigger(v.page))
    case CloseDialog => v.(page := DismissPopup(v.page))
    case TypeInto(key, value) => v.(page := InputChange(v.page, key, value))
    case SubmitForm(form, reply) =>
      var (page, sink) := Submit(v.page, v.sink, form, reply);
      Visitor(page, sink, if reply == Ok then v.pendingTimers + 1 else v.pendingTimers)
    case TimerExpires =>
      if v.pendingTimers == 0 then v
      else Visitor(TimerFires(v.page), v.sink, v.pendingTimers - 1)
  }

  /** A thank-you state is only ever shown for the form whose submission was
      the last one recorded, and a timer is always on its way to clear it. */
  predicate ThanksMatchLastSubmission(v: Visitor) {
    v.page.submitted.Some? ==>
      && |v.sink| > 0 && v.sink[|v.sink| - 1].formId == v.page.submitted.value
      && v.pendingTimers > 0
  }

  /** Every event keeps that invariant, and the sink only ever grows:
      recorded submissions are never changed or removed. */
  lemma StepKeepsThanks(v: Visitor, e: Event)
    requires ThanksMatchLastSubmission(v)
    ensures ThanksMatchLastSubmission(Step(v, e))
    ensures |Step(v, e).sink| >= |v.sink| && Step(v, e).sink[..|v.sink|] == v.sink
  {
  }
}

=== FILE: schema.dfy ===
/** The field schema of a form: the `FormField` and `CustomForm` shapes shared
    by the admin builder and the public renderer, and the three operations on
    a form's ordered field list (append a new field, remove by id, merge a
    patch into the field with a given id). */
module Schema {
  import opened JsValues

  /** A field's `type`. The five named kinds are the ones the builder offers;
      the stored value is only cast, never checked, so any other string can
      come back from the store and is kept as `OtherType`. */
  datatype FieldType = Text | Email | Textarea | Select | Phone | OtherType(raw: string)

  /** The string the code compares against and passes on as an input type. */
  function TypeName(t: FieldType): string {
    match t
    case Text => "text"
    case Email => "email"
    case Textarea => "textarea"
    case Select => "select"
    case Phone => "phone"
    case OtherType(raw) => raw
  }

  /** A form's `display_type`: `popup` or `section`, or whatever other string
      the store holds (the cast does not reject it). */
  datatype DisplayType = Popup | Section | OtherDisplay(raw: string)

  function DisplayName(d: DisplayType): string {
    match d
    case Popup => "popup"
    case Section => "section"
    case OtherDisplay(raw) => raw
  }

  /** A representation in which every string has exactly one spelling. */
  predicate CanonicalDisplay(d: DisplayType) {
    d.OtherDisplay? ==> d.raw != "popup" && d.raw != "section"
  }

  /** The wire cast `display_type as "popup" | "section"`: it keeps the string
      as it is, so reading its name back gives the stored string. */
  function ParseDisplay(s: string): (d: DisplayType)
    ensures DisplayName(d) == s
    ensures CanonicalDisplay(d)
  {
    if s == "popup" then Popup
    else if s == "section" then Section
    else OtherDisplay(s)
  }

  /** Writing a canonical display type and casting it back is the identity. */
  lemma ParseDisplayName(d: DisplayType)
    requires CanonicalDisplay(d)
    ensures ParseDisplay(DisplayName(d)) == d
  {
    match d
    case Popup =>
    case Section =>
    case OtherDisplay(raw) =>
  }

  datatype FormField = FormField(
    id: string,
    fieldLabel: string,
    kind: FieldType,
    required: bool,
    options: Option<seq<string>>,
    placeholder: Option<string>)

  datatype CustomForm = CustomForm(
    id: string,
    formName: string,
    description: Option<string>,
    fields: seq<FormField>,
    targetPage: string,
    displayType: DisplayType,
    isPublished: bool,
    popupTriggerText: Option<string>,
    sectionTitle: Option<string>,
    createdAt: int)

  /** The eight attributes an admin save writes back; id and creation time
      are the store's. */
  predicate SameMutableAttributes(a: CustomForm, b: CustomForm) {
    && a.formName == b.formName
    && a.description == b.description
    && a.fields == b.fields
    && a.targetPage == b.targetPage
    && a.displayType == b.displayType
    && a.isPublished == b.isPublished
    && a.popupTriggerText == b.popupTriggerText
    && a.sectionTitle == b.sectionTitle
  }

  predicate HasId(fields: seq<FormField>, id: string) {
    exists k :: 0 <= k < |fields| && fields[k].id == id
  }

  /** Field ids are pairwise distinct within one form. */
  predicate DistinctIds(fields: seq<FormField>) {
    forall i, j :: 0 <= i < j < |fields| ==> fields[i].id != fields[j].id
  }

  /** The builder's "new field" inputs. */
  datatype NewField = NewField(fieldLabel: string, kind: FieldType, required: bool, placeholder: Option<string>)

  /** What the inputs are reset to after a field is added. */
  const BlankNewField := NewField("", Text, false, Some(""))

  /** The options a freshly added dropdown starts with. */
  const DefaultSelectOptions: seq<string> := ["Option 1", "Option 2"]

  /** The field `handleAddField` builds from the inputs and a fresh id. */
  function MakeField(nf: NewField, id: string): (f: FormField)
    ensures f.id == id
    ensures f.fieldLabel == nf.fieldLabel && f.kind == nf.kind
    ensures f.required == nf.required && f.placeholder == nf.placeholder
    ensures TypeName(nf.kind) == "select" ==> f.options == Some(DefaultSelectOptions)
    ensures TypeName(nf.kind) != "select" ==> f.options == None
  {
    FormField(id, nf.fieldLabel, nf.kind, nf.required,
              if TypeName(nf.kind) == "select" then Some(DefaultSelectOptions) else None,
              nf.placeholder)
  }

  /** `fields.filter(f => f.id !== id)`. */
  function RemoveField(fields: seq<FormField>, id: string): (r: seq<FormField>)
    ensures |r| <= |fields|
    ensures forall f :: f in r <==> f in fields && f.id != id
    ensures !HasId(r, id)
  {
    if fields == [] then []
    else (if fields[0].id == id then [] else [fields[0]]) + RemoveField(fields[1..], id)
  }

  /** The properties of a `Partial<FormField>` that the builder patches: the
      label, type, placeholder and required inputs. `None` is an absent key. */
  datatype Patch = Patch(
    fieldLabel: Option<string>,
    kind: Option<FieldType>,
    required: Option<bool>,
    placeholder: Option<string>)

  /** `{ ...f, ...patch }`: every key present in the patch overrides. */
  function Merge(f: FormField, p: Patch): (r: FormField)
    ensures r.id == f.id && r.options == f.options
    ensures r.fieldLabel == (if p.fieldLabel.Some? then p.fieldLabel.value else f.fieldLabel)
    ensures r.kind == (if p.kind.Some? then p.kind.value else f.kind)
    ensures r.required == (if p.required.Some? then p.required.value else f.required)
    ensures r.placeholder == (if p.placeholder.Some? then p.placeholder else f.placeholder)
  {
    f.(fieldLabel := p.fieldLabel.GetOr(f.fieldLabel),
       kind := p.kind.GetOr(f.kind),
       required := p.required.GetOr(f.required),
       placeholder := if p.placeholder.Some? then p.placeholder else f.placeholder)
  }

  /** `fields.map(f => f.id === id ? { ...f, ...patch } : f)`. */
  function UpdateField(fields: seq<FormField>, id: string, p: Patch): (r: seq<FormField>)
    ensures |r| == |fields|
    ensures forall k :: 0 <= k < |r| ==> r[k].id == fields[k].id
    ensures forall k :: 0 <= k < |r| && fields[k].id != id ==> r[k] == fields[k]
    ensures forall k :: 0 <= k < |r| && fields[k].id == id ==> r[k] == Merge(fields[k], p)
  {
    if fields == [] then []
    else [if fields[0].id == id then Merge(fields[0], p) else fields[0]]
         + UpdateField(fields[1..], id, p)
  }

  /** Removing keeps the relative order of the survivors: it distributes
      over concatenation. */
  lemma {:induction false} RemoveFieldAppend(a: seq<FormField>, b: seq<FormField>, id: string)
    ensures RemoveField(a + b, id) == RemoveField(a, id) + RemoveField(b, id)
    decreases |a|
  {
    if a == [] {
      assert a + b == b;
    } else {
      assert (a + b)[1..] == a[1..] + b;
      RemoveFieldAppend(a[1..], b, id);
    }
  }

  /** Removing an id that no field has changes nothing. */
  lemma {:induction false} RemoveUnknownId(fields: seq<FormField>, id: string)
    requires !HasId(fields, id)
    ensures RemoveField(fields, id) == fields
    decreases |fields|
  {
    if fields != [] {
      assert fields[0].id != id;
      RemoveUnknownId(fields[1..], id);
      assert fields == [fields[0]] + fields[1..];
    }
  }

  /** Updating an id that no field has changes nothing. */
  lemma UpdateUnknownId(fields: seq<FormField>, id: string, p: Patch)
    requires !HasId(fields, id)
    ensures UpdateField(fields, id, p) == fields
  {
    var r := UpdateField(fields, id, p);
    forall k | 0 <= k < |fields| ensures r[k] == fields[k] {
      assert fields[k].id != id;
    }
  }

  /** Removing the same id twice is the same as removing it once. */
  lemma RemoveIdempotent(fields: seq<FormField>, id: string)
    ensures RemoveField(RemoveField(fields, id), id) == RemoveField(fields, id)
  {
    RemoveUnknownId(RemoveField(fields, id), id);
  }

  /** Once an id is removed, updating it is inert. */
  lemma RemoveThenUpdate(fields: seq<FormField>, id: string, p: Patch)
    ensures UpdateField(RemoveField(fields, id), id, p) == RemoveField(fields, id)
  {
    UpdateUnknownId(RemoveField(fields, id), id, p);
  }

  /** Appending a field with a fresh id keeps ids distinct. */
  lemma AppendKeepsDistinct(fields: seq<FormField>, f: FormField)
    requires DistinctIds(fields)
    requires !HasId(fields, f.id)
    ensures DistinctIds(fields + [f])
  {
    var r := fields + [f];
    forall i, j | 0 <= i < j < |r| ensures r[i].id != r[j].id {
      if j == |fields| {
        assert r[i] == fields[i];
      } else {
        assert r[i] == fields[i] && r[j] == fields[j];
      }
    }
  }

  /** Removing keeps ids distinct. */
  lemma {:induction false} RemoveKeepsDistinct(fields: seq<FormField>, id: string)
    requires DistinctIds(fields)
    ensures DistinctIds(RemoveField(fields, id))
    decreases |fields|
  {
    if fields != [] {
      var rest := fields[1..];
      assert DistinctIds(rest) by {
        forall i, j | 0 <= i < j < |rest| ensures rest[i].id != rest[j].id {
          assert rest[i] == fields[i + 1] && rest[j] == fields[j + 1];
        }
      }
      RemoveKeepsDistinct(rest, id);
      var tail := RemoveField(rest, id);
      if fields[0].id != id {
        forall f | f in tail ensures f.id != fields[0].id {
          var m :| 0 <= m < |rest| && rest[m] == f;
          assert fields[m + 1] == f;
        }
        DistinctCons(fields[0], tail);
      }
    }
  }

  /** A field whose id is new to a list with distinct ids can go in front. */
  lemma DistinctCons(f: FormField, fields: seq<FormField>)
    requires DistinctIds(fields)
    requires forall g :: g in fields ==> g.id != f.id
    ensures DistinctIds([f] + fields)
  {
    var all := [f] + fields;
    forall i, j | 0 <= i < j < |all| ensures all[i].id != all[j].id {
      assert all[j] == fields[j - 1];
      if i > 0 {
        assert all[i] == fields[i - 1];
      }
    }
  }

  /** Updating keeps ids distinct: no patch touches an id. */
  lemma UpdateKeepsDistinct(fields: seq<FormField>, id: string, p: Patch)
    requires DistinctIds(fields)
    ensures DistinctIds(UpdateField(fields, id, p))
  {
  }
}

=== FILE: store.dfy ===
/** The form definition store as the engine uses it: the `custom_forms` table
    as an in-memory sequence of wire rows, the normalisation of a row into a
    `CustomForm`, the insert / full-overwrite update / delete requests, the
    admin and public listings, and the insert-only `form_submissions` sink.
    A backend reply is abstracted to success or failure. */
module Store {
  import opened JsValues
  import opened Schema

  /** How a backend request settled. */
  datatype Reply = Ok | Failed

  /** A `custom_forms` row as it comes over the wire: `fields` is a nullable
      blob and `display_type` an untyped string. */
  datatype Row = Row(
    id: string,
    formName: string,
    description: Option<string>,
    fields: Option<seq<FormField>>,
    targetPage: string,
    displayType: string,
    isPublished: bool,
    popupTriggerText: Option<string>,
    sectionTitle: Option<string>,
    createdAt: int)

  /** The normalisation both listings and the create reply apply:
      `fields: (form.fields as FormField[]) || []` and a plain cast of
      `display_type`. Everything else is copied. */
  function Normalise(row: Row): (f: CustomForm)
    ensures f.id == row.id && f.createdAt == row.createdAt
    ensures row.fields.None? ==> f.fields == []
    ensures row.fields.Some? ==> f.fields == row.fields.value
    ensures DisplayName(f.displayType) == row.displayType
    ensures f.formName == row.formName && f.description == row.description
    ensures f.targetPage == row.targetPage && f.isPublished == row.isPublished
    ensures f.popupTriggerText == row.popupTriggerText && f.sectionTitle == row.sectionTitle
  {
    CustomForm(row.id, row.formName, row.description, row.fields.GetOr([]),
               row.targetPage, ParseDisplay(row.displayType), row.isPublished,
               row.popupTriggerText, row.sectionTitle, row.createdAt)
  }

  predicate HasRow(rows: seq<Row>, id: string) {
    exists k :: 0 <= k < |rows| && rows[k].id == id
  }

  /** Primary keys are unique. */
  predicate UniqueIds(rows: seq<Row>) {
    forall i, j :: 0 <= i < j < |rows| ==> rows[i].id != rows[j].id
  }

  /** The page a new form targets until an admin changes it. */
  const DefaultTargetPage := "home"

  /** The row the create request inserts: the name given, target page "home"
      and an empty field list; the other columns (id, creation time, the
      column defaults) are the backend's, carried by `template`. */
  function NewRow(template: Row, name: string): (row: Row)
    ensures row.formName == name && row.targetPage == DefaultTargetPage
    ensures row.fields == Some([])
    ensures row.id == template.id && row.createdAt == template.createdAt
    ensures row.isPublished == template.isPublished && row.displayType == template.displayType
    ensures row.description == template.description
    ensures row.popupTriggerText == template.popupTriggerText && row.sectionTitle == template.sectionTitle
  {
    template.(formName := name, targetPage := DefaultTargetPage, fields := Some([]))
  }

  /** Insert one row. */
  function Insert(rows: seq<Row>, row: Row): (r: seq<Row>)
    requires !HasRow(rows, row.id)
    ensures UniqueIds(rows) ==> UniqueIds(r)
    ensures |r| == |rows| + 1 && r[..|rows|] == rows && r[|rows|] == row
  {
    var r := rows + [row];
    assert r[..|rows|] == rows;
    r
  }

  /** The update request's column list: exactly the eight mutable attributes
      of the draft, written to a row; id and creation time are kept. Read
      back through `Normalise`, the row carries the draft's attributes. */
  function Overwrite(row: Row, draft: CustomForm): (r: Row)
    ensures r.id == row.id && r.createdAt == row.createdAt
    ensures r.formName == draft.formName && r.description == draft.description
    ensures r.fields == Some(draft.fields) && r.targetPage == draft.targetPage
    ensures r.displayType == DisplayName(draft.displayType) && r.isPublished == draft.isPublished
    ensures r.popupTriggerText == draft.popupTriggerText && r.sectionTitle == draft.sectionTitle
    ensures CanonicalDisplay(draft.displayType) ==> SameMutableAttributes(Normalise(r), draft)
  {
    row.(formName := draft.formName, description := draft.description,
         fields := Some(draft.fields), targetPage := draft.targetPage,
         displayType := DisplayName(draft.displayType), isPublished := draft.isPublished,
         popupTriggerText := draft.popupTriggerText, sectionTitle := draft.sectionTitle)
  }

  /** `update(...).eq("id", draft.id)`: every row with the draft's id is
      overwritten; the others are left alone. No version check. */
  function UpdateRows(rows: seq<Row>, draft: CustomForm): (r: seq<Row>)
    ensures |r| == |rows|
    ensures forall k :: 0 <= k < |r| ==> r[k].id == rows[k].id && r[k].createdAt == rows[k].createdAt
    ensures forall k :: 0 <= k < |r| && rows[k].id != draft.id ==> r[k] == rows[k]
    ensures forall k :: 0 <= k < |r| && rows[k].id == draft.id ==> r[k] == Overwrite(rows[k], draft)
  {
    if rows == [] then []
    else [if rows[0].id == draft.id then Overwrite(rows[0], draft) else rows[0]]
         + UpdateRows(rows[1..], draft)
  }

  /** `delete().eq("id", id)`. */
  function DeleteRows(rows: seq<Row>, id: string): (r: seq<Row>)
    ensures |r| <= |rows|
    ensures forall row :: row in r <==> row in rows && row.id != id
  {
    if rows == [] then []
    else (if rows[0].id == id then [] else [rows[0]]) + DeleteRows(rows[1..], id)
  }

  /** Most recent first. */
  predicate NewestFirst(rows: seq<Row>) {
    forall i, j :: 0 <= i < j < |rows| ==> rows[i].createdAt >= rows[j].createdAt
  }

  /** `row` is no older than anything in `rows`. */
  predicate NoOlderThanAll(row: Row, rows: seq<Row>) {
    forall k :: 0 <= k < |rows| ==> row.createdAt >= rows[k].createdAt
  }

  lemma NewestFirstCons(row: Row, rows: seq<Row>)
    requires NewestFirst(rows) && NoOlderThanAll(row, rows)
    ensures NewestFirst([row] + rows)
  {
    var all := [row] + rows;
    forall i, j | 0 <= i < j < |all| ensures all[i].createdAt >= all[j].createdAt {
      assert all[j] == rows[j - 1];
      if i > 0 {
        assert all[i] == rows[i - 1];
      }
    }
  }

  /** The head of a newest-first sequence is no older than any
      rearrangement of its tail plus a younger row. */
  lemma HeadNoOlderThanTail(row: Row, rows: seq<Row>, tail: seq<Row>)
    requires NewestFirst(rows) && rows != [] && row.createdAt < rows[0].createdAt
    requires multiset(tail) == multiset(rows[1..]) + multiset{row}
    ensures NoOlderThanAll(rows[0], tail)
  {
    forall k | 0 <= k < |tail| ensures rows[0].createdAt >= tail[k].createdAt {
      assert tail[k] in multiset(rows[1..]) + multiset{row};
      if tail[k] != row {
        var m :| 0 <= m < |rows[1..]| && rows[1..][m] == tail[k];
        assert rows[m + 1] == tail[k];
      }
    }
  }

  /** Place `row` into a newest-first sequence. */
  function InsertByAge(row: Row, rows: seq<Row>): (r: seq<Row>)
    requires NewestFirst(rows)
    ensures NewestFirst(r)
    ensures multiset(r) == multiset(rows) + multiset{row}
  {
    if rows == [] then [row]
    else if row.createdAt >= rows[0].createdAt then
      NewestFirstCons(row, rows);
      [row] + rows
    else
      assert rows == [rows[0]] + rows[1..];
      var tail := InsertByAge(row, rows[1..]);
      HeadNoOlderThanTail(row, rows, tail);
      NewestFirstCons(rows[0], tail);
      [rows[0]] + tail
  }

  /** `order("created_at", { ascending: false })`, as an insertion sort: a
      newest-first permutation of the rows. */
  function SortNewestFirst(rows: seq<Row>): (r: seq<Row>)
    ensures NewestFirst(r)
    ensures multiset(r) == multiset(rows)
  {
    if rows == [] then []
    else
      assert rows == [rows[0]] + rows[1..];
      InsertByAge(rows[0], SortNewestFirst(rows[1..]))
  }

  /** The admin listing: every row, newest first, normalised. */
  function ListAll(rows: seq<Row>): (r: seq<CustomForm>)
    ensures |r| == |rows|
    ensures forall i, j :: 0 <= i < j < |r| ==> r[i].createdAt >= r[j].createdAt
    ensures forall row :: row in rows ==> Normalise(row) in r
    ensures forall f :: f in r ==> exists row :: row in rows && Normalise(row) == f
  {
    var sorted := SortNewestFirst(rows);
    assert |sorted| == |multiset(sorted)| == |rows|;
    var r := seq(|sorted|, k requires 0 <= k < |sorted| => Normalise(sorted[k]));
    forall row | row in rows ensures Normalise(row) in r {
      assert row in multiset(sorted);
      var k :| 0 <= k < |sorted| && sorted[k] == row;
      assert r[k] == Normalise(row);
    }
    forall f | f in r ensures exists row :: row in rows && Normalise(row) == f {
      var k :| 0 <= k < |r| && r[k] == f;
      assert sorted[k] in multiset(rows);
    }
    r
  }

  /** `eq("target_page", page).eq("is_published", true)`, normalised, in the
      store's order. */
  function ListPublished(rows: seq<Row>, page: string): (r: seq<CustomForm>)
    ensures forall f :: f in r ==> f.targetPage == page && f.isPublished
    ensures forall row :: row in rows ==>
              (Normalise(row) in r <==> row.targetPage == page && row.isPublished)
    ensures forall f :: f in r ==>
              exists row :: row in rows && row.targetPage == page && row.isPublished && Normalise(row) == f
  {
    if rows == [] then []
    else (if rows[0].targetPage == page && rows[0].isPublished then [Normalise(rows[0])] else [])
         + ListPublished(rows[1..], page)
  }

  /** The public listing distributes over concatenation: each row is
      listed at most once, in table order. */
  lemma {:induction false} ListPublishedAppend(a: seq<Row>, b: seq<Row>, page: string)
    ensures ListPublished(a + b, page) == ListPublished(a, page) + ListPublished(b, page)
    decreases |a|
  {
    if a == [] {
      assert a + b == b;
    } else {
      assert (a + b)[1..] == a[1..] + b;
      ListPublishedAppend(a[1..], b, page);
    }
  }

  /** One `form_submissions` row: the form id and the submitted key/value
      bag, inserted once and never changed. */
  datatype Submission = Submission(formId: string, data: map<string, string>)

  /** The sink is append-only: a success appends the submission, a failure
      leaves it as it was. */
  function RecordSubmission(sink: seq<Submission>, s: Submission, reply: Reply): (r: seq<Submission>)
    ensures reply == Ok ==> |r| == |sink| + 1 && r[..|sink|] == sink && r[|sink|] == s
    ensures reply == Failed ==> r == sink
  {
    if reply == Ok then
      assert (sink + [s])[..|sink|] == sink;
      sink + [s]
    else sink
  }
}
